=== FILE: README.md ===
# Chat client core, modelled in Dafny

This project models the sequential logic under a small browser chat client.
The client signs a user in, keeps one message log per user in a hosted
database, and asks a hosted language model for each reply. Everything it
does with the outside world becomes a parameter here: the database, file
storage, the completion service and the clock. Each handler is one pure
function from the state before it ran to the state after it, plus a record
of what it asked of the outside world, in order.

The modules follow the source files:

- `Optional` (`optional.dfy`) is the nullable value.
- `JsText` (`js_text.dfy`) holds the JavaScript string behaviour the code
  relies on. That is `String.prototype.trim` with the WhiteSpace and
  LineTerminator sets of sections 12.2 and 12.3 of ECMA-262, the blank test
  `!s.trim()`, and the decimal text of a non-negative integer below 10^21 in
  a template literal.
- `AiService` (`ai_service.dfy`) models `getAIResponse`: the request it
  builds and how it picks the reply it hands back.
- `ChatService` (`chat_service.dfy`) models `generateChatTitle`: the title
  prompt, and cleaning the reply of quotes and surrounding whitespace.
- `FileId` (`file_id.dfy`) models `extractFileId`. It first states what the
  regular expression `[-\w]{25,}(?!.*[-\w]{25,})` matches: the leftmost
  start, the greedy end, and a negative lookahead whose `.*` stops at a line
  terminator. A scanner is proved to compute exactly that match. Lemmas then
  show the match is the last maximal run of at least 25 characters from
  `[A-Za-z0-9_-]`.
- `DriveFileLink` (`drive_file_link.dfy`) models the attachment list:
  `addDriveLink`, `removeFile`, and the list handed to `onFilesUpdate`.
- `ChatPage` (`chat_page.dfy`) models the page. Its state is the message
  log, the input field and the loading flag. It covers the send handler,
  `saveMessage`, the wholesale reload by `loadMessages`, and the header's
  display name.
- `TitleEditor`, `EditableTitle`, `ChatTitle` and `TitleEditorFacts`
  (`title_editors.dfy`) model the two inline title editors. Each has an
  editing flag and an edit buffer. The last module relates the two editors
  and runs whole event sequences.
- `Profile` (`profile.dfy`) models the profile form: the 2 MiB avatar bound,
  the extension and storage-name derivation, and the upsert record.

Four behaviours of the code are worth knowing before reading the model:

- There is a single message log per user.
- The Drive list appends an id even when it is already listed.
- The user message is shown even if its insert failed.
- `ChatTitle` saves a blank title, unlike `EditableTitle`.

## Model

| member | source | states |
|---|---|---|
| `JsText.Trim` | lib/chat-service.ts:15 | `trim` keeps exactly the slice left after removing every leading and trailing ECMAScript whitespace or line terminator; the result has neither at either end |
| `JsText.TrimEmptyIffBlank` | app/page.tsx:101 | `s.trim()` is empty exactly when every character of `s` is whitespace or a line terminator, so `!input.trim()` is the blank test |
| `JsText.TrimIdempotent` | lib/chat-service.ts:15 | trimming a trimmed string changes nothing |
| `JsText.Decimal` | components/DriveFileLink.tsx:37 | the rendered number is non-empty, all digits, without a leading zero, and reads back as the number |
| `AiService.ReplyRequest` | lib/ai-service.ts:12-26 | the request holds exactly two turns, the fixed system instruction and then the caller's message verbatim as the user turn |
| `AiService.ReplyRequestInjective` | lib/ai-service.ts:19-22 | distinct messages give distinct requests; the message is recovered from the user turn |
| `AiService.GetAIResponse` | lib/ai-service.ts:8-35 | a non-empty first-choice content is returned unchanged; a null or empty one gives "I couldn't generate a response."; a failed call or an empty choice list gives the apology; the reply is never empty |
| `AiService.ReplyIsContentOrFallback` | lib/ai-service.ts:29-33 | every reply is the completion's own content or one of the two fixed fallbacks |
| `ChatService.TitlePrompt` | lib/chat-service.ts:13 | the prompt is the fixed prefix, the first message verbatim, and a closing double quote, so the message can be read back out of it |
| `ChatService.TitlePromptInjective` | lib/chat-service.ts:13 | distinct first messages give distinct prompts |
| `ChatService.StripQuotes` | lib/chat-service.ts:15 | no `"` or `'` is left; a character survives exactly when it occurred and is not a quote |
| `ChatService.StripQuotesAppend` | lib/chat-service.ts:15 | removing quotes distributes over concatenation, so surviving characters keep their order |
| `ChatService.SanitizeTitle` | lib/chat-service.ts:15 | the cleaned title has no quote characters and no whitespace at either end |
| `ChatService.SanitizeIdempotent` | lib/chat-service.ts:15 | cleaning a cleaned title changes nothing |
| `ChatService.QuotesAndBlanksGiveEmptyTitle` | lib/chat-service.ts:15-18 | a reply of only quotes and whitespace cleans to the empty title, with no fallback |
| `ChatService.SanitizeKeepsFirstChar` | lib/chat-service.ts:15 | a reply opening with a non-quote, non-whitespace character keeps it as the title's first character |
| `ChatService.SanitizeKeepsLastChar` | lib/chat-service.ts:15 | a reply closing with a non-quote, non-whitespace character keeps it as the title's last character |
| `ChatService.GenerateChatTitle` | lib/chat-service.ts:11-20 | the completion is asked with the title prompt; the title is quote-free and trimmed; it is the cleaned content when the completion answered with content, the cleaned "I couldn't generate a response." for a null or empty first choice, and the cleaned apology for a failed call or an empty choice list |
| `ChatService.FailedCompletionTitlesWithApology` | lib/chat-service.ts:14-18 | a failed completion yields the cleaned apology as title, never "New Chat": the `catch` cannot be reached |
| `FileId.LookaheadBlocked` | components/DriveFileLink.tsx:23 | the lookahead fails at a position exactly when a run of 25 identifier characters starts at or after it before the next line terminator |
| `FileId.FindMatch` | components/DriveFileLink.tsx:23 | the scan finds no match exactly when none starts at or after the given position; otherwise it returns the leftmost match, at its longest |
| `FileId.ExtractFileId` | components/DriveFileLink.tsx:22-25 | null exactly when the link has no run of 25 identifier characters; otherwise the text of the match the regular expression selects |
| `FileId.MatchExistsIffLongRun` | components/DriveFileLink.tsx:23-24 | the expression matches somewhere exactly when the link holds 25 identifier characters in a row |
| `FileId.SelectedMatchUnique` | components/DriveFileLink.tsx:24 | the selected match is unique |
| `FileId.FileIdIsMaximalRun` | components/DriveFileLink.tsx:23 | an extracted id is a slice of the link, at least 25 long, all from `[A-Za-z0-9_-]`, with no such character just before or just after it |
| `FileId.FileIdIsLast` | components/DriveFileLink.tsx:23 | on a single-line link no run of 25 identifier characters starts after the id |
| `FileId.LastMaximalRunIsExtracted` | components/DriveFileLink.tsx:23 | conversely, on a single-line link the last maximal run of at least 25 identifier characters is the id extracted |
| `DriveFileLink.DocumentName` | components/DriveFileLink.tsx:37 | the name is "Document ", then the numeral `${n}` renders: digits, no leading zero, reading back as the position |
| `DriveFileLink.AddDriveLink` | components/DriveFileLink.tsx:27-49 | an unparseable link only sets the error text and notifies nobody; a parseable one appends exactly one entry `{id, url, "Document n+1", false}` at the end, clears the field and the error, and passes the new list to `onFilesUpdate` |
| `DriveFileLink.WithoutId` | components/DriveFileLink.tsx:52 | an entry is kept exactly when it was listed and has a different id |
| `DriveFileLink.RemoveFile` | components/DriveFileLink.tsx:51-55 | every entry with the id is dropped and the others kept; the field and error are untouched; `onFilesUpdate` receives the new list |
| `DriveFileLink.WithoutIdAppend` | components/DriveFileLink.tsx:52 | the filter works entry by entry, so kept entries stay in their original order |
| `DriveFileLink.WithoutAbsentId` | components/DriveFileLink.tsx:52 | removing an id that is not listed leaves the list unchanged |
| `DriveFileLink.RemoveFileIdempotent` | components/DriveFileLink.tsx:51-55 | removing an id twice is removing it once |
| `DriveFileLink.RemoveUndoesAdd` | components/DriveFileLink.tsx:34-54 | removing the id just added restores the list, when the id was not listed before |
| `DriveFileLink.AddingTwiceListsTwice` | components/DriveFileLink.tsx:37-41 | there is no duplicate check: the same link added twice is listed twice, with one id and two names |
| `ChatPage.SaveMessage` | app/page.tsx:81-97 | nothing is inserted without a non-empty user id or with empty content; otherwise exactly one insert; an insert error never reaches the caller |
| `ChatPage.HandleSendMessage` | app/page.tsx:99-134 | a blank input or a send in flight changes nothing and asks nothing; otherwise the raw input is shown as the user message and the input cleared before the reply is asked, the reply is appended after it, loading ends, and the effects run user insert, completion request, assistant insert |
| `ChatPage.SendRejected` | app/page.tsx:101 | a send is rejected exactly when the input is blank (all whitespace or line terminators) or loading is on |
| `ChatPage.SendIgnoresInsertOutcomes` | app/page.tsx:94-96 | the shown log does not depend on whether either insert succeeded |
| `ChatPage.SendAppendsUserThenAssistant` | app/page.tsx:107-127 | an accepted send grows the log by exactly two messages, user with the raw input then a non-empty assistant reply, and keeps the old log as its prefix |
| `ChatPage.NoImmediateResend` | app/page.tsx:101-115 | straight after an accepted send a second send is rejected, because the input is now empty |
| `ChatPage.LoadMessages` | app/page.tsx:54-67 | fetched rows replace the whole log; an error or a null result leaves the state unchanged; input and loading flag are never touched |
| `ChatPage.LoadReplacesWholesale` | app/page.tsx:62-63 | after a successful load the log no longer depends on what was shown or loaded before |
| `ChatPage.HeaderLabel` | app/page.tsx:162 | the email exactly when the first name is missing or empty; otherwise the first name, a space, then the last name or nothing |
| `EditableTitle.HandleSave` | components/EditableTitle.tsx:14-19 | a blank buffer changes nothing and saves nothing; any other buffer is handed to `onSave` untrimmed and editing stops |
| `EditableTitle.Step` | components/EditableTitle.tsx:14-55 | save and Enter hand over the untrimmed buffer and stop editing exactly when the buffer is not blank, and change nothing otherwise; other keys change nothing; cancel restores the title without saving; entering edit mode keeps the buffer |
| `ChatTitle.Step` | components/ChatTitle.tsx:14-49 | save always hands over the buffer, blank or not, and stops editing; cancel restores the title without saving; entering edit mode keeps the buffer |
| `TitleEditorFacts.EditorsDifferOnlyOnBlankSaveAndEnter` | components/EditableTitle.tsx:14-19 | the two editors agree on every event except a blank save, which only ChatTitle commits, and Enter, which only EditableTitle handles |
| `TitleEditorFacts.EditableCancelDiscardsEdits` | components/EditableTitle.tsx:39-42 | after any typing, cancel returns EditableTitle to its initial state with nothing committed |
| `TitleEditorFacts.ChatTitleCancelDiscardsEdits` | components/ChatTitle.tsx:33-36 | after any typing, cancel returns ChatTitle to its initial state with nothing committed |
| `TitleEditorFacts.EditableNeverCommitsBlank` | components/EditableTitle.tsx:14-19 | over any sequence of events EditableTitle never commits a blank title |
| `Profile.PickAvatar` | components/Profile.tsx:165-175 | a file over 2·1024·1024 bytes is refused with a banner and the earlier choice stays; any other picked file replaces it; no file changes nothing |
| `Profile.AvatarBoundIsInclusive` | components/Profile.tsx:168 | exactly 2 MiB is accepted; one byte more is refused |
| `Profile.PickKeepsBound` | components/Profile.tsx:165-175 | the kept file never exceeds the bound |
| `Profile.FileExtension` | components/Profile.tsx:75 | the extension is dot-free, ends the name, and is preceded by a dot unless it is the whole name |
| `Profile.ExtensionAfterLastDot` | components/Profile.tsx:75 | the extension of a name ending in a dot and a dot-free tail is that tail |
| `Profile.StorageFileName` | components/Profile.tsx:75-76 | the storage name starts with the user id and a hyphen, then holds the numeral `Date.now()` renders (digits, no leading zero, reading back as the upload time), then a dot and the picked file's extension |
| `Profile.StorageNameDeterminesTime` | components/Profile.tsx:76 | for one user and one file, equal storage names mean equal upload times, so uploads at different milliseconds never share a name |
| `Profile.NullIfEmpty` | components/Profile.tsx:95-98 | a field becomes null exactly when it is null or empty, and is unchanged otherwise |
| `Profile.UpdateRecord` | components/Profile.tsx:93-101 | the record carries the signed-in id, the given avatar URL and time stamp, and each text field null exactly when it was null or empty, otherwise unchanged |
| `Profile.ErrorNotice` | components/Profile.tsx:118-121 | a caught error gives a non-empty error banner: its message, or "Error updating profile" when the message is empty |
| `Profile.NullIfEmptyIdempotent` | components/Profile.tsx:95-98 | turning empty fields into null twice is doing it once |
| `Profile.UpdateProfile` | components/Profile.tsx:62-126 | no loaded profile does nothing; no user writes nothing and shows "No user found"; a chosen file is uploaded as `<user id>-<now>.<extension>`, and a failed upload shows its error and stops before the upsert; otherwise the row is always written and is the update record with the new public URL when a file was chosen, else the old avatar URL; the banner is "Profile updated successfully" or the upsert's error; `onProfileUpdate` runs exactly when the upsert succeeded |
| `Profile.UpsertedFieldsNeverEmpty` | components/Profile.tsx:93-101 | the four text fields of a written row are never the empty string |

## Left out

- Network calls to the database, file storage and completion service are not modelled. Each becomes an outcome parameter (`InsertOutcome`, `CompletionOutcome`, `LoadOutcome`, `UploadOutcome`, `UpsertOutcome`).
- `Date.now()` and `new Date().toISOString()` are not modelled. Their readings are parameters (`Clock`, `ProfileWorld.nowMillis`, `ProfileWorld.nowIso`).
- Authentication is left out: reading the session, the auth-change subscription and sign-out. The signed-in user id and email are parameters.
- The two `getProfile` functions are left out. The one in app/page.tsx:69-79 fetches the header fields and stores them, ignoring errors. The one in components/Profile.tsx:34-60 also raises "No user found" when nobody is signed in, shows the "Error loading profile" banner on any failure and drives the `loading` flag. A failed load leaves no profile, which `Profile.UpdateProfile` treats as "do nothing".
- The `console.log` and `console.error` calls are not modelled (lib/ai-service.ts:10,28,32; lib/chat-service.ts:17; app/page.tsx:65,95,130; components/Profile.tsx:50,55,78,103,119). They only write diagnostics and change no state.
- `createChat`, `loadChats` and lib/knowledge-service.ts are not part of this model. They are database wrappers, and the knowledge service also relies on floating-point similarity.
- Rendering, styling, the spinner and the sidebar, search and modal components are not part of this model.
- The `setTimeout` that clears a banner is not modelled, and neither are Profile's `loading` and `uploading` display flags.
- React's asynchronous state updates are not modelled, such as typing into the field while a reply is awaited. Each handler is one atomic step.
- The title editors' handlers are modelled for every event in every mode. The markup only offers save, cancel and typing while editing, and the pencil while not editing.
- `AiService.GetAIResponse`: the temperature 0.7 is kept as the whole number of tenths 7, and the model name and token limit are constants.
- `JsText.Trim`: characters are Unicode scalar values, while JavaScript strings are UTF-16 code units. The two coincide outside the astral planes, and no astral character is trimmable.
- `ChatService.GenerateChatTitle`: it has no exception branch. `getAIResponse` catches every error, so the `catch` returning "New Chat" is unreachable (see `ChatService.FailedCompletionTitlesWithApology`).
- `Profile.UpdateProfile`: the `onProfileUpdate` prop is optional in components/Profile.tsx:10 and guarded at line 114. The model takes it as always present, as its only caller passes it (components/ProfileModal.tsx:24).
- `Profile.UpdateProfile`: a caught error's text is modelled as the string carried by the outcome. Non-`Error` values thrown by the libraries are not distinguished.

=== FILE: ai_service.dfy ===
/** `getAIResponse` (lib/ai-service.ts): one chat-completion request per user
    message, and the choice of the text handed back to the page. The hosted
    completion call itself is not modelled; its outcome is a parameter. */
module AiService {
  import opened Optional

  datatype TurnRole = SystemTurn | UserTurn

  datatype RequestTurn = RequestTurn(role: TurnRole, content: string)

  /** The body of a chat-completion request. The temperature 0.7 is kept as
      tenths so that the request stays an exact value. */
  datatype ChatRequest = ChatRequest(
    model: string,
    messages: seq<RequestTurn>,
    temperatureTenths: nat,
    maxTokens: nat)

  /** What the completion call did: it answered with a list of choices, each
      carrying a message content that may be null, or it threw. */
  datatype CompletionOutcome =
    | Completed(choices: seq<Option<string>>)
    | CallFailed

  /** The request that was sent together with the text handed back. */
  datatype Exchange = Exchange(request: ChatRequest, reply: string)

  const Model := "gpt-3.5-turbo"
  const SystemInstruction := "You are a helpful assistant."
  const TemperatureTenths := 7
  const MaxTokens := 500
  const EmptyReplyText := "I couldn't generate a response."
  const FailureReplyText := "I'm sorry, I couldn't process your request at the moment."

  /** The request for `message`: the fixed system instruction, then the
      message itself as the user turn. */
  function ReplyRequest(message: string): (req: ChatRequest)
    ensures |req.messages| == 2
    ensures req.messages[0] == RequestTurn(SystemTurn, SystemInstruction)
    ensures req.messages[1] == RequestTurn(UserTurn, message)
  {
    ChatRequest(
      Model,
      [RequestTurn(SystemTurn, SystemInstruction), RequestTurn(UserTurn, message)],
      TemperatureTenths,
      MaxTokens)
  }

  /** The first choice's content when there is one and it is non-empty. */
  predicate HasUsableContent(outcome: CompletionOutcome) {
    && outcome.Completed?
    && |outcome.choices| > 0
    && outcome.choices[0].Some?
    && outcome.choices[0].value != ""
  }

  /** `getAIResponse(message)`. Reading `choices[0]` of an empty list throws
      inside the `try`, so it lands in the same catch as a failed call. */
  function GetAIResponse(message: string, outcome: CompletionOutcome): (r: Exchange)
    ensures r.request == ReplyRequest(message)
    ensures r.reply != ""
    ensures HasUsableContent(outcome) ==> r.reply == outcome.choices[0].value
    ensures (outcome.Completed? && |outcome.choices| > 0 && !HasUsableContent(outcome)) ==>
              r.reply == EmptyReplyText
    ensures (outcome.CallFailed? || outcome.choices == []) ==> r.reply == FailureReplyText
  {
    var request := ReplyRequest(message);
    match outcome
    case CallFailed => Exchange(request, FailureReplyText)
    case Completed(choices) =>
      if |choices| == 0 then Exchange(request, FailureReplyText)
      else
        var content := choices[0].GetOr("");
        Exchange(request, if content != "" then content else EmptyReplyText)
  }

  /** The request loses nothing: distinct messages give distinct requests,
      and the message is recovered from the user turn. */
  lemma ReplyRequestInjective(m1: string, m2: string)
    ensures ReplyRequest(m1) == ReplyRequest(m2) ==> m1 == m2
    ensures ReplyRequest(m1).messages[1].content == m1
  {
  }

  /** Whatever the outcome, the reply is one of the completion's own content
      or one of the two fixed fallbacks. */
  lemma ReplyIsContentOrFallback(message: string, outcome: CompletionOutcome)
    ensures var reply := GetAIResponse(message, outcome).reply;
      || (HasUsableContent(outcome) && reply == outcome.choices[0].value)
      || reply == EmptyReplyText
      || reply == FailureReplyText
  {
  }
}

=== FILE: chat_page.dfy ===
/** The chat page (app/page.tsx): the message log with its input field and
    loading flag, the send handler, the message insert, the wholesale reload
    of the log, and the header's display name.

    Each handler runs as one sequential step. The backing store, the
    completion call and the clock are not modelled: what they return is a
    parameter, and what the handler asks of them is recorded as an Effect. */
module ChatPage {
  import opened Optional
  import JsText
  import AiService

  datatype Role = User | Assistant

  datatype Message = Message(id: int, content: string, role: Role, createdAt: string)

  /** The page state the send handler reads and writes. */
  datatype ChatState = ChatState(messages: seq<Message>, input: string, isLoading: bool)

  /** Whether the `messages` insert reported an error. */
  datatype InsertOutcome = Inserted | InsertFailed

  /** A request made of the outside world, in the order it was made. */
  datatype Effect =
    | InsertRow(userId: string, content: string, role: Role, outcome: InsertOutcome)
    | RequestReply(request: AiService.ChatRequest)

  /** The two clock readings of a send: `Date.now()` and the ISO time when
      the user message is appended, and again when the reply is appended. */
  datatype Clock = Clock(userMillis: int, userIso: string, replyMillis: int, replyIso: string)

  /** What the outside world does during one send. */
  datatype SendWorld = SendWorld(
    userInsert: InsertOutcome,
    completion: AiService.CompletionOutcome,
    assistantInsert: InsertOutcome,
    clock: Clock)

  /** A run of the send handler: the state shown while the reply is awaited,
      the final state, and the effects in order. */
  datatype SendRun = SendRun(awaiting: ChatState, final: ChatState, effects: seq<Effect>)

  /** `saveMessage(content, role)`: nothing is inserted without a signed-in
      user id or with empty content; an insert error is logged and
      swallowed, so the caller never sees it. */
  function SaveMessage(userId: Option<string>, content: string, role: Role, outcome: InsertOutcome)
    : (effects: seq<Effect>)
    ensures effects == [] <==> (userId.None? || userId.value == "" || content == "")
    ensures effects != [] ==> effects == [InsertRow(userId.value, content, role, outcome)]
  {
    if userId.None? || userId.value == "" || content == "" then []
    else [InsertRow(userId.value, content, role, outcome)]
  }

  /** The guard of `handleSendMessage`, `!input.trim() || isLoading`: it
      rejects exactly a blank input and a send made while one is in flight. */
  predicate SendRejected(st: ChatState)
    ensures SendRejected(st) <==> JsText.IsBlank(st.input) || st.isLoading
  {
    JsText.TrimEmptyIffBlank(st.input);
    JsText.Trim(st.input) == "" || st.isLoading
  }

  /** `handleSendMessage`. */
  function HandleSendMessage(st: ChatState, userId: Option<string>, world: SendWorld): (run: SendRun)
    // Rejected: nothing is saved, sent or shown, and the input is kept.
    ensures SendRejected(st) ==> run == SendRun(st, st, [])
    // Accepted: the user message is shown with the raw input and the input
    // is cleared before the reply is requested...
    ensures !SendRejected(st) ==>
      run.awaiting
        == ChatState(st.messages + [Message(world.clock.userMillis, st.input, User, world.clock.userIso)], "", true)
    // ...then the reply is appended after it, and loading always ends.
    ensures !SendRejected(st) ==>
      var reply := AiService.GetAIResponse(st.input, world.completion).reply;
      run.final
        == ChatState(run.awaiting.messages
                       + [Message(world.clock.replyMillis + 1, reply, Assistant, world.clock.replyIso)],
                     "", false)
    // The store sees the user insert, then the reply request, then the
    // assistant insert.
    ensures !SendRejected(st) ==>
      var exchange := AiService.GetAIResponse(st.input, world.completion);
      run.effects
        == SaveMessage(userId, st.input, User, world.userInsert)
           + [RequestReply(exchange.request)]
           + SaveMessage(userId, exchange.reply, Assistant, world.assistantInsert)
  {
    if SendRejected(st) then
      SendRun(st, st, [])
    else
      var userMessage := st.input;
      var saveUser := SaveMessage(userId, userMessage, User, world.userInsert);
      var shown := st.messages + [Message(world.clock.userMillis, userMessage, User, world.clock.userIso)];
      var awaiting := ChatState(shown, "", true);
      var exchange := AiService.GetAIResponse(userMessage, world.completion);
      var aiResponse := exchange.reply;
      var asked := saveUser + [RequestReply(exchange.request)];
      if aiResponse != "" then
        var saveReply := SaveMessage(userId, aiResponse, Assistant, world.assistantInsert);
        var answered := shown + [Message(world.clock.replyMillis + 1, aiResponse, Assistant, world.clock.replyIso)];
        SendRun(awaiting, ChatState(answered, "", false), asked + saveReply)
      else
        SendRun(awaiting, ChatState(shown, "", false), asked)
  }

  /** Insert errors are swallowed: the shown log does not depend on whether
      either insert succeeded. */
  lemma SendIgnoresInsertOutcomes(st: ChatState, userId: Option<string>, w1: SendWorld, w2: SendWorld)
    requires w1.completion == w2.completion && w1.clock == w2.clock
    ensures HandleSendMessage(st, userId, w1).awaiting == HandleSendMessage(st, userId, w2).awaiting
    ensures HandleSendMessage(st, userId, w1).final == HandleSendMessage(st, userId, w2).final
  {
  }

  /** An accepted send grows the log by exactly the user message and the
      reply, in that order, and leaves everything before them as it was. */
  lemma SendAppendsUserThenAssistant(st: ChatState, userId: Option<string>, world: SendWorld)
    requires !SendRejected(st)
    ensures var log := HandleSendMessage(st, userId, world).final.messages;
      && |log| == |st.messages| + 2
      && log[..|st.messages|] == st.messages
      && log[|st.messages|].role == User && log[|st.messages|].content == st.input
      && log[|st.messages| + 1].role == Assistant
      && log[|st.messages| + 1].content != ""
  {
  }

  /** A send cannot be repeated by accident: straight after an accepted send
      the input is empty, so an immediate second send is rejected. */
  lemma NoImmediateResend(st: ChatState, userId: Option<string>, w1: SendWorld, w2: SendWorld)
    requires !SendRejected(st)
    ensures var after := HandleSendMessage(st, userId, w1).final;
      HandleSendMessage(after, userId, w2) == SendRun(after, after, [])
  {
    var after := HandleSendMessage(st, userId, w1).final;
    assert JsText.Trim("") == "" by {
      JsText.TrimEmptyIffBlank("");
    }
  }

  /** What the `messages` query returned: rows (possibly `null`) or an
      error. */
  datatype LoadOutcome = Rows(data: Option<seq<Message>>) | LoadFailed

  /** `loadMessages`: the whole log is replaced by the fetched rows; an
      error or a `null` result leaves the state unchanged. */
  function LoadMessages(st: ChatState, outcome: LoadOutcome): (r: ChatState)
    ensures r.input == st.input && r.isLoading == st.isLoading
    ensures (outcome.Rows? && outcome.data.Some?) ==> r.messages == outcome.data.value
    ensures !(outcome.Rows? && outcome.data.Some?) ==> r == st
  {
    match outcome
    case LoadFailed => st
    case Rows(data) =>
      match data
      case Some(rows) => st.(messages := rows)
      case None => st
  }

  /** A successful load forgets the local log: whatever was shown before,
      and whatever was loaded before, the result is the same. */
  lemma LoadReplacesWholesale(st1: ChatState, st2: ChatState, earlier: LoadOutcome, rows: seq<Message>)
    requires st1.input == st2.input && st1.isLoading == st2.isLoading
    ensures LoadMessages(LoadMessages(st1, earlier), Rows(Some(rows)))
              == LoadMessages(st2, Rows(Some(rows)))
  {
  }

  /** The profile fields the header reads. */
  datatype HeaderProfile = HeaderProfile(
    avatarUrl: Option<string>,
    firstName: Option<string>,
    lastName: Option<string>)

  /** The header's display name (line 162): the first name, a space and the
      last name (empty when missing) when there is a non-empty first name,
      otherwise the signed-in user's email. */
  function HeaderLabel(profile: Option<HeaderProfile>, email: Option<string>): (name: Option<string>)
    ensures (profile.Some? && profile.value.firstName.Some? && profile.value.firstName.value != "") ==>
      && name.Some?
      && |name.value| > |profile.value.firstName.value|
      && name.value[..|profile.value.firstName.value| + 1] == profile.value.firstName.value + " "
      && name.value[|profile.value.firstName.value| + 1..] == profile.value.lastName.GetOr("")
    ensures !(profile.Some? && profile.value.firstName.Some? && profile.value.firstName.value != "") ==>
      name == email
  {
    if profile.Some? && profile.value.firstName.Some? && profile.value.firstName.value != "" then
      var first := profile.value.firstName.value;
      var shown := first + " " + profile.value.lastName.GetOr("");
      assert shown[..|first| + 1] == first + " ";
      Some(shown)
    else
      email
  }
}

=== FILE: chat_service.dfy ===
/** `generateChatTitle` (lib/chat-service.ts): a title prompt built around the
    first message, sent through `getAIResponse`, and the reply cleaned of
    quotes and surrounding whitespace. */
module ChatService {
  import opened JsText
  import AiService

  const TitlePromptPrefix := "Based on this first message, generate a short, concise chat title (max 6 words): \""
  const FallbackTitle := "New Chat"

  /** The prompt: the fixed instruction, then the first message verbatim
      inside double quotes, so the message can be read back out of it. */
  function TitlePrompt(firstMessage: string): (prompt: string)
    ensures |prompt| == |TitlePromptPrefix| + |firstMessage| + 1
    ensures prompt[..|TitlePromptPrefix|] == TitlePromptPrefix
    ensures prompt[|TitlePromptPrefix|..|prompt| - 1] == firstMessage
    ensures prompt[|prompt| - 1] == '"'
  {
    var p := TitlePromptPrefix + firstMessage + "\"";
    assert p[..|TitlePromptPrefix|] == TitlePromptPrefix;
    assert p[|TitlePromptPrefix|..|p| - 1] == firstMessage;
    p
  }

  /** Distinct first messages give distinct prompts. */
  lemma TitlePromptInjective(m1: string, m2: string)
    ensures TitlePrompt(m1) == TitlePrompt(m2) ==> m1 == m2
  {
    if TitlePrompt(m1) == TitlePrompt(m2) {
      var p := TitlePrompt(m1);
      assert m1 == p[|TitlePromptPrefix|..|p| - 1] == m2;
    }
  }

  predicate IsQuote(c: char) {
    c == '"' || c == '\''
  }

  /** `s.replace(/["']/g, '')`: every quote removed, the rest kept in order. */
  function StripQuotes(s: string): (r: string)
    ensures forall k | 0 <= k < |r| :: !IsQuote(r[k])
    ensures |r| <= |s|
    ensures forall c :: c in r <==> c in s && !IsQuote(c)
  {
    if |s| == 0 then ""
    else if IsQuote(s[0]) then StripQuotes(s[1..])
    else [s[0]] + StripQuotes(s[1..])
  }

  /** Removing quotes distributes over concatenation, so the characters that
      survive keep their relative order. */
  lemma {:induction false} StripQuotesAppend(a: string, b: string)
    ensures StripQuotes(a + b) == StripQuotes(a) + StripQuotes(b)
  {
    if |a| == 0 {
      assert a + b == b;
    } else {
      assert (a + b)[1..] == a[1..] + b;
      StripQuotesAppend(a[1..], b);
    }
  }

  /** A string without quotes is left unchanged. */
  lemma {:induction false} StripQuotesOfQuoteFree(s: string)
    requires forall k | 0 <= k < |s| :: !IsQuote(s[k])
    ensures StripQuotes(s) == s
  {
    if |s| > 0 {
      StripQuotesOfQuoteFree(s[1..]);
    }
  }

  /** The title cleaning of line 15: strip quotes, then trim. */
  function SanitizeTitle(reply: string): (r: string)
    ensures forall k | 0 <= k < |r| :: !IsQuote(r[k])
    ensures IsTrimmed(r)
  {
    var t := Trim(StripQuotes(reply));
    forall k | 0 <= k < |t| ensures !IsQuote(t[k]) {
      TrimKeepsOnlyInputChars(StripQuotes(reply), t[k]);
    }
    t
  }

  /** Cleaning a clean title changes nothing. */
  lemma SanitizeIdempotent(reply: string)
    ensures SanitizeTitle(SanitizeTitle(reply)) == SanitizeTitle(reply)
  {
    var t := SanitizeTitle(reply);
    StripQuotesOfQuoteFree(t);
    TrimOfTrimmed(t);
  }

  /** A reply made only of quotes and whitespace cleans to the empty title;
      no fallback is applied to it. */
  lemma QuotesAndBlanksGiveEmptyTitle(reply: string)
    requires forall k | 0 <= k < |reply| :: IsQuote(reply[k]) || IsTrimmable(reply[k])
    ensures SanitizeTitle(reply) == ""
  {
    var s := StripQuotes(reply);
    forall k | 0 <= k < |s| ensures IsTrimmable(s[k]) {
      assert s[k] in s;
      assert s[k] in reply;
    }
    TrimEmptyIffBlank(s);
  }

  /** The result of `generateChatTitle`: the request sent and the title. */
  datatype TitleRun = TitleRun(request: AiService.ChatRequest, title: string)

  /** `generateChatTitle(firstMessage)`. `getAIResponse` catches every error
      itself and the cleaning cannot throw, so the `catch` returning "New
      Chat" has nothing to catch: the title is always the cleaned reply. */
  function GenerateChatTitle(firstMessage: string, outcome: AiService.CompletionOutcome): (r: TitleRun)
    ensures r.request == AiService.ReplyRequest(TitlePrompt(firstMessage))
    ensures forall k | 0 <= k < |r.title| :: !IsQuote(r.title[k])
    ensures IsTrimmed(r.title)
    ensures AiService.HasUsableContent(outcome) ==>
              r.title == SanitizeTitle(outcome.choices[0].value)
    // A null or empty first choice titles the chat with the cleaned
    // "no response" text, and a failed call or an empty choice list with the
    // cleaned apology.
    ensures (outcome.Completed? && |outcome.choices| > 0 && !AiService.HasUsableContent(outcome)) ==>
              r.title == SanitizeTitle(AiService.EmptyReplyText)
    ensures (outcome.CallFailed? || outcome.choices == []) ==>
              r.title == SanitizeTitle(AiService.FailureReplyText)
  {
    var exchange := AiService.GetAIResponse(TitlePrompt(firstMessage), outcome);
    TitleRun(exchange.request, SanitizeTitle(exchange.reply))
  }

  /** A reply opening with a character that is neither a quote nor
      trimmable gives a title opening with that same character. */
  lemma SanitizeKeepsFirstChar(reply: string)
    requires |reply| > 0 && !IsQuote(reply[0]) && !IsTrimmable(reply[0])
    ensures |SanitizeTitle(reply)| > 0 && SanitizeTitle(reply)[0] == reply[0]
  {
    var s := StripQuotes(reply);
    assert s == [reply[0]] + StripQuotes(reply[1..]);
    assert !IsTrimmable(s[0]);
    var a, b := TrimBounds(s);
  }

  /** Likewise at the other end: a reply closing with a character that is
      neither a quote nor trimmable gives a title closing with it. */
  lemma SanitizeKeepsLastChar(reply: string)
    requires |reply| > 0 && !IsQuote(reply[|reply| - 1]) && !IsTrimmable(reply[|reply| - 1])
    ensures var t := SanitizeTitle(reply);
      |t| > 0 && t[|t| - 1] == reply[|reply| - 1]
  {
    var last := reply[|reply| - 1];
    assert reply == reply[..|reply| - 1] + [last];
    StripQuotesAppend(reply[..|reply| - 1], [last]);
    var s := StripQuotes(reply);
    assert s == StripQuotes(reply[..|reply| - 1]) + [last];
    assert !IsTrimmable(s[|s| - 1]);
    var a, b := TrimBounds(s);
  }

  /** A failed completion does not produce the "New Chat" fallback: the
      apology text of getAIResponse, cleaned, becomes the title. */
  lemma FailedCompletionTitlesWithApology(firstMessage: string)
    ensures GenerateChatTitle(firstMessage, AiService.CallFailed).title
              == SanitizeTitle(AiService.FailureReplyText)
    ensures GenerateChatTitle(firstMessage, AiService.CallFailed).title != FallbackTitle
  {
    var reply := AiService.FailureReplyText;
    assert reply[|reply| - 1] == '.';
    SanitizeKeepsLastChar(reply);
  }
}

=== FILE: drive_file_link.dfy ===
/** The attachment list of the Drive-link widget
    (components/DriveFileLink.tsx): `addDriveLink` and `removeFile`, each of
    which also hands the new list to the `onFilesUpdate` callback. */
module DriveFileLink {
  import opened Optional
  import JsText
  import FileId

  datatype DriveFile = DriveFile(id: string, url: string, name: string, isProcessed: bool)

  /** The widget's state: the URL field, the list and the error text. */
  datatype LinkPanel = LinkPanel(url: string, files: seq<DriveFile>, error: Option<string>)

  /** A handler's effect: the next state, and the list passed to
      `onFilesUpdate` when the handler calls it. */
  datatype PanelStep = PanelStep(panel: LinkPanel, notified: Option<seq<DriveFile>>)

  const InvalidLinkError := "Please enter a valid Google Drive link"

  /** The panel the widget starts with. */
  const EmptyPanel := LinkPanel("", [], None)

  /** The display name of the n-th document, as `Document ${n}` renders it:
      the word, a space, and a numeral that reads back as `n`. */
  function DocumentName(n: nat): (name: string)
    ensures |name| > 9 && name[..9] == "Document "
    ensures forall k | 9 <= k < |name| :: JsText.IsDigit(name[k])
    ensures |name| > 10 ==> name[9] != '0'
    ensures JsText.DecimalValue(name[9..]) == n
  {
    var name := "Document " + JsText.Decimal(n);
    assert name[9..] == JsText.Decimal(n);
    name
  }

  /** `addDriveLink`: an unparseable URL only sets the error; otherwise one
      entry is appended, whatever ids the list already holds, and the field
      and error are cleared. */
  function AddDriveLink(p: LinkPanel): (r: PanelStep)
    ensures FileId.ExtractFileId(p.url).None? ==>
      && r.panel == p.(error := Some(InvalidLinkError))
      && r.notified == None
    ensures FileId.ExtractFileId(p.url).Some? ==>
      && |r.panel.files| == |p.files| + 1
      && r.panel.files[..|p.files|] == p.files
      && r.panel.files[|p.files|]
           == DriveFile(FileId.ExtractFileId(p.url).value, p.url, DocumentName(|p.files| + 1), false)
      && r.panel.url == ""
      && r.panel.error == None
      && r.notified == Some(r.panel.files)
  {
    match FileId.ExtractFileId(p.url)
    case None => PanelStep(p.(error := Some(InvalidLinkError)), None)
    case Some(fileId) =>
      var newFile := DriveFile(fileId, p.url, DocumentName(|p.files| + 1), false);
      var updated := p.files + [newFile];
      PanelStep(LinkPanel("", updated, None), Some(updated))
  }

  /** `files.filter(file => file.id !== id)`. */
  function WithoutId(files: seq<DriveFile>, id: string): (r: seq<DriveFile>)
    ensures |r| <= |files|
    ensures forall f :: f in r <==> f in files && f.id != id
  {
    if |files| == 0 then []
    else if files[0].id == id then WithoutId(files[1..], id)
    else [files[0]] + WithoutId(files[1..], id)
  }

  /** `removeFile(id)`: the URL field and the error are left alone. */
  function RemoveFile(p: LinkPanel, id: string): (r: PanelStep)
    ensures r.panel.url == p.url && r.panel.error == p.error
    ensures forall f :: f in r.panel.files <==> f in p.files && f.id != id
    ensures r.notified == Some(r.panel.files)
  {
    var updated := WithoutId(p.files, id);
    PanelStep(p.(files := updated), Some(updated))
  }

  /** The filter works entry by entry, so the entries kept stay in their
      original order. */
  lemma {:induction false} WithoutIdAppend(a: seq<DriveFile>, b: seq<DriveFile>, id: string)
    ensures WithoutId(a + b, id) == WithoutId(a, id) + WithoutId(b, id)
  {
    if |a| == 0 {
      assert a + b == b;
    } else {
      assert (a + b)[1..] == a[1..] + b;
      WithoutIdAppend(a[1..], b, id);
    }
  }

  /** A list that does not hold the id is returned unchanged. */
  lemma {:induction false} WithoutAbsentId(files: seq<DriveFile>, id: string)
    requires forall k | 0 <= k < |files| :: files[k].id != id
    ensures WithoutId(files, id) == files
  {
    if |files| > 0 {
      WithoutAbsentId(files[1..], id);
    }
  }

  /** Removing the same id twice is removing it once. */
  lemma RemoveFileIdempotent(p: LinkPanel, id: string)
    ensures RemoveFile(RemoveFile(p, id).panel, id).panel == RemoveFile(p, id).panel
  {
    var once := WithoutId(p.files, id);
    forall k | 0 <= k < |once| ensures once[k].id != id {
      assert once[k] in once;
    }
    WithoutAbsentId(once, id);
  }

  /** Removing the id a successful add has just appended undoes the add on
      the list, provided the id was not already listed. */
  lemma RemoveUndoesAdd(p: LinkPanel, id: string)
    requires FileId.ExtractFileId(p.url) == Some(id)
    requires forall k | 0 <= k < |p.files| :: p.files[k].id != id
    ensures RemoveFile(AddDriveLink(p).panel, id).panel.files == p.files
  {
    var added := AddDriveLink(p).panel.files;
    var last := added[|p.files|];
    assert added == p.files + [last];
    WithoutIdAppend(p.files, [last], id);
    WithoutAbsentId(p.files, id);
    assert WithoutId([last], id) == [];
  }

  /** There is no duplicate check: adding the same link twice lists its id
      twice, under two names. */
  lemma AddingTwiceListsTwice(p: LinkPanel)
    requires FileId.ExtractFileId(p.url).Some?
    ensures var once := AddDriveLink(p).panel;
      var twice := AddDriveLink(once.(url := p.url)).panel;
      && |twice.files| == |p.files| + 2
      && twice.files[|p.files|].id == twice.files[|p.files| + 1].id
      && twice.files[|p.files|].name != twice.files[|p.files| + 1].name
  {
    var n := |p.files|;
    var a, b := JsText.Decimal(n + 1), JsText.Decimal(n + 2);
    assert JsText.DecimalValue(a) != JsText.DecimalValue(b);
    assert DocumentName(n + 1)[9..] == a;
    assert DocumentName(n + 2)[9..] == b;
  }
}

=== FILE: file_id.dfy ===
/** `extractFileId` (components/DriveFileLink.tsx): the first match of the
    regular expression `[-\w]{25,}(?!.*[-\w]{25,})` in a pasted link.

    The expression's meaning is written down first (RegexMatch and
    SelectedMatch: leftmost start, then the longest greedy run, then a
    negative lookahead whose `.*` cannot cross a line terminator); the
    scanner FindMatch is proved to compute exactly that, and the lemmas at
    the end give the match's shape: the last maximal run of at least 25
    identifier characters. */
module FileId {
  import opened Optional
  import JsText

  /** The `{25,}` bound. */
  const MinIdLength := 25

  /** The class `[-\w]`: ASCII letters, digits, underscore and hyphen. */
  predicate IsIdChar(c: char) {
    || ('A' <= c <= 'Z') || ('a' <= c <= 'z') || ('0' <= c <= '9')
    || c == '_' || c == '-'
  }

  /** `s[i..j]` consists of identifier characters only. */
  ghost predicate IdRun(s: string, i: int, j: int) {
    0 <= i <= j <= |s| && forall k | i <= k < j :: IsIdChar(s[k])
  }

  /** `[-\w]{25,}` can start at `p`: 25 identifier characters follow it. */
  ghost predicate LongRunAt(s: string, p: int) {
    IdRun(s, p, p + MinIdLength)
  }

  /** `.*` can carry the lookahead from `j` to `p`: no line terminator lies
      between them. */
  ghost predicate NoBreak(s: string, j: int, p: int) {
    0 <= j <= p <= |s| && forall k | j <= k < p :: !JsText.IsLineTerminator(s[k])
  }

  /** `(?!.*[-\w]{25,})` holds at position `j`. */
  ghost predicate LookaheadHolds(s: string, j: int) {
    !exists p :: NoBreak(s, j, p) && LongRunAt(s, p)
  }

  /** The whole expression matches `s[i..j]`. */
  ghost predicate RegexMatch(s: string, i: int, j: int) {
    IdRun(s, i, j) && j - i >= MinIdLength && LookaheadHolds(s, j)
  }

  /** The match `String.prototype.match` reports: the leftmost start, and at
      that start the longest run the greedy quantifier can keep. */
  ghost predicate SelectedMatch(s: string, i: int, j: int) {
    && RegexMatch(s, i, j)
    && (forall a, b :: a < i ==> !RegexMatch(s, a, b))
    && (forall b :: j < b ==> !RegexMatch(s, i, b))
  }

  ghost predicate HasLongRun(s: string) {
    exists p :: LongRunAt(s, p)
  }

  datatype Span = Span(start: nat, end: nat)

  /** The end of the run of identifier characters starting at `i`. */
  function RunEnd(s: string, i: nat): (e: nat)
    requires i <= |s|
    ensures IdRun(s, i, e)
    ensures e == |s| || !IsIdChar(s[e])
    decreases |s| - i
  {
    if i < |s| && IsIdChar(s[i]) then RunEnd(s, i + 1) else i
  }

  /** A long run starts at `p` exactly when the run from `p` is long. */
  lemma LongRunAtIff(s: string, p: nat)
    requires p <= |s|
    ensures LongRunAt(s, p) <==> RunEnd(s, p) >= p + MinIdLength
  {
    var e := RunEnd(s, p);
    if e < p + MinIdLength && p + MinIdLength <= |s| {
      assert !IsIdChar(s[e]);
    }
  }

  /** Whether the lookahead at `j` fails: some long run is reachable from
      `j` without crossing a line terminator. */
  function LookaheadBlocked(s: string, j: nat): (blocked: bool)
    requires j <= |s|
    ensures blocked <==> exists p :: NoBreak(s, j, p) && LongRunAt(s, p)
    decreases |s| - j
  {
    LongRunAtIff(s, j);
    if RunEnd(s, j) >= j + MinIdLength then
      assert NoBreak(s, j, j);
      true
    else if j < |s| && !JsText.IsLineTerminator(s[j]) then
      var rest := LookaheadBlocked(s, j + 1);
      assert rest ==> exists p :: NoBreak(s, j, p) && LongRunAt(s, p) by {
        if rest {
          var p :| NoBreak(s, j + 1, p) && LongRunAt(s, p);
          assert NoBreak(s, j, p);
        }
      }
      assert (exists p :: NoBreak(s, j, p) && LongRunAt(s, p)) ==> rest by {
        if exists p :: NoBreak(s, j, p) && LongRunAt(s, p) {
          var p :| NoBreak(s, j, p) && LongRunAt(s, p);
          assert p != j;
          assert NoBreak(s, j + 1, p);
        }
      }
      rest
    else
      assert forall p :: NoBreak(s, j, p) ==> p == j by {
        forall p | NoBreak(s, j, p) ensures p == j {
          assert j < |s| ==> JsText.IsLineTerminator(s[j]);
        }
      }
      false
  }

  /** Identifier characters are never line terminators, so a lookahead that
      fails at the end of a run fails anywhere inside the run too. */
  lemma BlockedInsideRun(s: string, b: int, e: int)
    requires IdRun(s, b, e)
    requires !LookaheadHolds(s, e)
    ensures !LookaheadHolds(s, b)
  {
    var p :| NoBreak(s, e, p) && LongRunAt(s, p);
    forall k | b <= k < p ensures !JsText.IsLineTerminator(s[k]) {
      if k < e { assert IsIdChar(s[k]); }
    }
    assert NoBreak(s, b, p);
  }

  /** The regex engine's scan: try each start from `i` on, keep the whole
      run there, and accept it when the lookahead holds after it. */
  function FindMatch(s: string, i: nat): (r: Option<Span>)
    requires i <= |s|
    ensures r.None? ==> forall a, b :: i <= a ==> !RegexMatch(s, a, b)
    ensures r.Some? ==>
      && i <= r.value.start
      && RegexMatch(s, r.value.start, r.value.end)
      && (forall a, b :: i <= a < r.value.start ==> !RegexMatch(s, a, b))
      && (forall b :: r.value.end < b ==> !RegexMatch(s, r.value.start, b))
    decreases |s| - i
  {
    if i + MinIdLength > |s| then
      None
    else
      var e := RunEnd(s, i);
      assert forall b :: RegexMatch(s, i, b) ==> b <= e by {
        forall b | RegexMatch(s, i, b) ensures b <= e {
          assert e < |s| ==> !IsIdChar(s[e]);
        }
      }
      if e - i >= MinIdLength && !LookaheadBlocked(s, e) then
        Some(Span(i, e))
      else
        assert forall b :: !RegexMatch(s, i, b) by {
          forall b | RegexMatch(s, i, b) ensures false {
            assert IdRun(s, b, e);
            BlockedInsideRun(s, b, e);
          }
        }
        FindMatch(s, i + 1)
  }

  /** `url.match(...)?.[0] ?? null`. */
  function ExtractFileId(url: string): (r: Option<string>)
    ensures r.None? <==> !HasLongRun(url)
    ensures r.Some? ==> exists i, j :: SelectedMatch(url, i, j) && r.value == url[i..j]
  {
    MatchExistsIffLongRun(url);
    match FindMatch(url, 0)
    case None => None
    case Some(span) => Some(url[span.start..span.end])
  }

  // ---------------------------------------------------------------------
  // The shape of the match.

  /** Among the long runs at or after `p` there is a last one. */
  lemma {:induction false} LastLongRun(s: string, p: int) returns (q: int)
    requires LongRunAt(s, p)
    ensures p <= q && LongRunAt(s, q)
    ensures forall q' :: q < q' ==> !LongRunAt(s, q')
    decreases |s| - p
  {
    if exists q' :: p < q' && LongRunAt(s, q') {
      var q' :| p < q' && LongRunAt(s, q');
      q := LastLongRun(s, q');
    } else {
      q := p;
    }
  }

  /** The expression matches somewhere exactly when the link holds 25
      identifier characters in a row. */
  lemma MatchExistsIffLongRun(s: string)
    ensures (exists a, b :: RegexMatch(s, a, b)) <==> HasLongRun(s)
  {
    if HasLongRun(s) {
      var p :| LongRunAt(s, p);
      var q := LastLongRun(s, p);
      LongRunAtIff(s, q);
      var e := RunEnd(s, q);
      assert RegexMatch(s, q, e);
    }
    if exists a, b :: RegexMatch(s, a, b) {
      var a, b :| RegexMatch(s, a, b);
      assert LongRunAt(s, a);
    }
  }

  /** At most one match is selected. */
  lemma SelectedMatchUnique(s: string, i: int, j: int, i': int, j': int)
    requires SelectedMatch(s, i, j) && SelectedMatch(s, i', j')
    ensures i == i' && j == j'
  {
  }

  /** The id is a slice of the link, at least 25 identifier characters long,
      and maximal: the characters on either side are not identifier
      characters. */
  lemma FileIdIsMaximalRun(url: string, id: string) returns (i: nat)
    requires ExtractFileId(url) == Some(id)
    ensures i + |id| <= |url| && url[i..i + |id|] == id
    ensures |id| >= MinIdLength
    ensures forall k | 0 <= k < |id| :: IsIdChar(id[k])
    ensures i == 0 || !IsIdChar(url[i - 1])
    ensures i + |id| == |url| || !IsIdChar(url[i + |id|])
  {
    var j;
    i, j :| SelectedMatch(url, i, j) && id == url[i..j];
    assert url[i..i + |id|] == id;
    forall k | 0 <= k < |id| ensures IsIdChar(id[k]) {
      assert id[k] == url[i + k];
    }
    if 0 < i && IsIdChar(url[i - 1]) {
      // The match would then start one character earlier.
      assert RegexMatch(url, i - 1, j);
    }
    if j < |url| && IsIdChar(url[j]) {
      // The greedy run would then reach one character further.
      assert NoBreak(url, j, j + 1);
      assert LookaheadHolds(url, j + 1) by {
        forall p | NoBreak(url, j + 1, p) && LongRunAt(url, p) ensures false {
          assert NoBreak(url, j, p);
        }
      }
      assert RegexMatch(url, i, j + 1);
    }
  }

  ghost predicate NoLineTerminator(s: string) {
    forall k | 0 <= k < |s| :: !JsText.IsLineTerminator(s[k])
  }

  /** On a single-line link, no run of 25 identifier characters starts
      after the id: the id is the last such run. */
  lemma FileIdIsLast(url: string, id: string) returns (i: nat)
    requires NoLineTerminator(url)
    requires ExtractFileId(url) == Some(id)
    ensures i + |id| <= |url| && url[i..i + |id|] == id
    ensures forall p :: i + |id| <= p ==> !LongRunAt(url, p)
  {
    var j;
    i, j :| SelectedMatch(url, i, j) && id == url[i..j];
    forall p | j <= p ensures !LongRunAt(url, p) {
      if LongRunAt(url, p) {
        assert NoBreak(url, j, p);
      }
    }
    assert url[i..i + |id|] == id;
  }

  /** Conversely, on a single-line link the last maximal run of at least 25
      identifier characters is exactly what is extracted. */
  lemma LastMaximalRunIsExtracted(url: string, i: int, j: int)
    requires NoLineTerminator(url)
    requires IdRun(url, i, j) && j - i >= MinIdLength
    requires i == 0 || !IsIdChar(url[i - 1])
    requires j == |url| || !IsIdChar(url[j])
    requires forall p :: j <= p ==> !LongRunAt(url, p)
    ensures ExtractFileId(url) == Some(url[i..j])
  {
    assert RegexMatch(url, i, j);
    forall a, b | a < i ensures !RegexMatch(url, a, b) {
      // A match ending at or before i would have the run at i in view of
      // its lookahead; one ending after i would make url[i - 1] part of it.
      if RegexMatch(url, a, b) && b <= i {
        assert NoBreak(url, b, i) && LongRunAt(url, i);
      }
    }
    forall b | j < b ensures !RegexMatch(url, i, b) {
    }
    assert SelectedMatch(url, i, j);
    var i', j' :| SelectedMatch(url, i', j') && ExtractFileId(url).value == url[i'..j'];
    SelectedMatchUnique(url, i, j, i', j');
  }
}

=== FILE: js_text.dfy ===
/** The parts of JavaScript's string semantics the client relies on:
    `String.prototype.trim`, the truthiness of strings, and the decimal
    rendering of a non-negative integer in a template literal.

    Characters are Unicode scalar values; JavaScript strings are UTF-16 code
    units, which coincide for every character outside the astral planes. */
module JsText {

  /** WhiteSpace as listed in section 12.2 of ECMA-262 (TAB, VT, FF, SPACE,
      NO-BREAK SPACE, ZERO WIDTH NO-BREAK SPACE and the Zs category). */
  predicate IsWhiteSpace(c: char) {
    || c == '\t' || c == '\U{000B}' || c == '\U{000C}' || c == ' '
    || c == '\U{00A0}' || c == '\U{FEFF}' || c == '\U{1680}'
    || ('\U{2000}' <= c <= '\U{200A}')
    || c == '\U{202F}' || c == '\U{205F}' || c == '\U{3000}'
  }

  /** LineTerminator as listed in section 12.3 of ECMA-262. */
  predicate IsLineTerminator(c: char) {
    c == '\n' || c == '\r' || c == '\U{2028}' || c == '\U{2029}'
  }

  /** The characters `trim` removes from both ends. */
  predicate IsTrimmable(c: char) {
    IsWhiteSpace(c) || IsLineTerminator(c)
  }

  /** Every character is trimmable: what `!s.trim()` tests. */
  predicate IsBlank(s: string) {
    forall k | 0 <= k < |s| :: IsTrimmable(s[k])
  }

  /** `s[a..b]` is what is left of `s` once every leading and trailing
      trimmable character is removed: an independent statement of `trim`. */
  ghost predicate IsTrimSlice(s: string, a: int, b: int) {
    && 0 <= a <= b <= |s|
    && (forall k | 0 <= k < a :: IsTrimmable(s[k]))
    && (forall k | b <= k < |s| :: IsTrimmable(s[k]))
    && (a < b ==> !IsTrimmable(s[a]) && !IsTrimmable(s[b - 1]))
  }

  /** No trimmable character at either end. */
  predicate IsTrimmed(s: string) {
    |s| == 0 || (!IsTrimmable(s[0]) && !IsTrimmable(s[|s| - 1]))
  }

  /** Where `trim` starts keeping characters: the first position at or
      after `i` that is not trimmable, or the end of `s`. */
  function TrimStartIndex(s: string, i: nat): (a: nat)
    requires i <= |s|
    ensures i <= a <= |s|
    ensures forall k | i <= k < a :: IsTrimmable(s[k])
    ensures a < |s| ==> !IsTrimmable(s[a])
    decreases |s| - i
  {
    if i < |s| && IsTrimmable(s[i]) then TrimStartIndex(s, i + 1) else i
  }

  /** Where `trim` stops keeping characters: the end of the last position
      before `j` that is not trimmable, or `a` when there is none from `a`
      on. */
  function TrimEndIndex(s: string, a: nat, j: nat): (b: nat)
    requires a <= j <= |s|
    ensures a <= b <= j
    ensures forall k | b <= k < j :: IsTrimmable(s[k])
    ensures a < b ==> !IsTrimmable(s[b - 1])
    decreases j
  {
    if a < j && IsTrimmable(s[j - 1]) then TrimEndIndex(s, a, j - 1) else j
  }

  /** JavaScript's `s.trim()`. */
  function Trim(s: string): (r: string)
    ensures IsTrimmed(r)
    ensures exists a, b :: IsTrimSlice(s, a, b) && r == s[a..b]
  {
    var a := TrimStartIndex(s, 0);
    var b := TrimEndIndex(s, a, |s|);
    assert IsTrimSlice(s, a, b);
    s[a..b]
  }

  /** The trim of a string is determined by the slice characterisation. */
  lemma TrimSliceUnique(s: string, a: int, b: int, a': int, b': int)
    requires IsTrimSlice(s, a, b) && IsTrimSlice(s, a', b')
    ensures s[a..b] == s[a'..b']
  {
    // The first and last kept characters of either slice are untrimmable,
    // so they cannot lie in the other slice's trimmed margins.
    if a < b { assert !IsTrimmable(s[a]) && !IsTrimmable(s[b - 1]); }
    if a' < b' { assert !IsTrimmable(s[a']) && !IsTrimmable(s[b' - 1]); }
  }

  /** `trim` returns the slice IsTrimSlice describes. */
  lemma TrimIsTrimSlice(s: string, a: int, b: int)
    requires IsTrimSlice(s, a, b)
    ensures Trim(s) == s[a..b]
  {
    var a', b' := TrimBounds(s);
    TrimSliceUnique(s, a, b, a', b');
  }

  /** The bounds of the slice `trim` keeps. */
  lemma TrimBounds(s: string) returns (a: int, b: int)
    ensures IsTrimSlice(s, a, b) && Trim(s) == s[a..b]
  {
    var t := Trim(s);
    a, b :| IsTrimSlice(s, a, b) && t == s[a..b];
  }

  /** `trim` yields the empty string exactly for blank strings, which is
      why `!s.trim()` is the blank test. */
  lemma TrimEmptyIffBlank(s: string)
    ensures Trim(s) == "" <==> IsBlank(s)
  {
    var a, b := TrimBounds(s);
    if a < b { assert !IsTrimmable(s[a]); }
  }

  /** A string with no trimmable character at either end is its own trim. */
  lemma TrimOfTrimmed(s: string)
    requires IsTrimmed(s)
    ensures Trim(s) == s
  {
    if |s| == 0 {
      TrimIsTrimSlice(s, 0, 0);
    } else {
      TrimIsTrimSlice(s, 0, |s|);
    }
  }

  /** `trim` is idempotent. */
  lemma TrimIdempotent(s: string)
    ensures Trim(Trim(s)) == Trim(s)
  {
    TrimOfTrimmed(Trim(s));
  }

  /** Characters surviving `trim` were in the input. */
  lemma TrimKeepsOnlyInputChars(s: string, c: char)
    requires c in Trim(s)
    ensures c in s
  {
    var a, b := TrimBounds(s);
    var k :| 0 <= k < |s[a..b]| && s[a..b][k] == c;
    assert s[a + k] == c;
  }

  // ---------------------------------------------------------------------
  // Decimal rendering of naturals, as `${n}` renders a non-negative integer.

  predicate IsDigit(c: char) {
    '0' <= c <= '9'
  }

  function DigitChar(d: nat): (c: char)
    requires d < 10
    ensures IsDigit(c) && c as int - '0' as int == d
  {
    ('0' as int + d) as char
  }

  /** The value of a string of decimal digits, the inverse of Decimal. */
  function DecimalValue(s: string): (v: nat)
    requires forall k | 0 <= k < |s| :: IsDigit(s[k])
  {
    if |s| == 0 then 0
    else
      assert IsDigit(s[|s| - 1]);
      DecimalValue(s[..|s| - 1]) * 10 + (s[|s| - 1] as int - '0' as int)
  }

  /** The shortest decimal numeral for `n`: what a template literal prints
      for `n` below 10^21, which covers every length and clock reading here
      (from 10^21 on JavaScript switches to exponent notation). */
  function Decimal(n: nat): (r: string)
    ensures |r| >= 1
    ensures forall k | 0 <= k < |r| :: IsDigit(r[k])
    ensures |r| > 1 ==> r[0] != '0'
    ensures DecimalValue(r) == n
  {
    if n < 10 then [DigitChar(n)]
    else
      var prefix := Decimal(n / 10);
      var r := prefix + [DigitChar(n % 10)];
      assert r[..|r| - 1] == prefix;
      r
  }
}

=== FILE: optional.dfy ===
/** A value that may be absent: the model's stand-in for TypeScript's `T | null`
    (and `T | undefined`). */
module Optional {

  datatype Option<+T> = None | Some(value: T) {

    /** The value, or `default` when absent (TypeScript's `x ?? default`). */
    function GetOr(default: T): (r: T)
      ensures Some? ==> r == value
      ensures None? ==> r == default
    {
      match this
      case Some(v) => v
      case None => default
    }
  }
}

=== FILE: profile.dfy ===
/** The profile form (components/Profile.tsx): choosing an avatar file under
    the size bound, and `updateProfile`, which uploads the chosen file under a
    derived storage name and then upserts the profile row with empty fields
    sent as null. Storage, the database and the clock are parameters. */
module Profile {
  import opened Optional
  import JsText

  datatype ProfileData = ProfileData(
    id: string,
    firstName: Option<string>,
    lastName: Option<string>,
    phoneNumber: Option<string>,
    countryCode: Option<string>,
    avatarUrl: Option<string>,
    updatedAt: Option<string>)

  /** The picked file: its name and size in bytes. */
  datatype AvatarFile = AvatarFile(name: string, size: nat)

  /** The record handed to `upsert`. */
  datatype ProfileUpdate = ProfileUpdate(
    id: string,
    firstName: Option<string>,
    lastName: Option<string>,
    phoneNumber: Option<string>,
    countryCode: Option<string>,
    avatarUrl: Option<string>,
    updatedAt: string)

  /** The banner shown under the form. */
  datatype Notice = Notice(text: string, isError: bool)

  const MaxAvatarBytes := 2 * 1024 * 1024
  const TooLargeText := "Image must be less than 2MB"
  const NoUserText := "No user found"
  const UpdateFailedText := "Error updating profile"
  const UpdatedText := "Profile updated successfully"

  // ---------------------------------------------------------------------
  // Choosing an avatar file.

  /** The file kept for upload, and the banner. */
  datatype AvatarPick = AvatarPick(file: Option<AvatarFile>, notice: Option<Notice>)

  /** The file input's change handler: a file over 2 MiB is refused with a
      banner and the earlier choice stays; any other file replaces it. */
  function PickAvatar(current: Option<AvatarFile>, picked: Option<AvatarFile>): (r: AvatarPick)
    ensures r.file.Some? && r.file != current ==> r.file == picked && r.file.value.size <= MaxAvatarBytes
    ensures (picked.Some? && picked.value.size <= MaxAvatarBytes) ==> r == AvatarPick(picked, None)
    ensures (picked.Some? && picked.value.size > MaxAvatarBytes) ==>
              r == AvatarPick(current, Some(Notice(TooLargeText, true)))
    ensures picked.None? ==> r == AvatarPick(current, None)
  {
    match picked
    case None => AvatarPick(current, None)
    case Some(file) =>
      if file.size > MaxAvatarBytes then AvatarPick(current, Some(Notice(TooLargeText, true)))
      else AvatarPick(picked, None)
  }

  /** Exactly 2 MiB is accepted; one byte more is refused. */
  lemma AvatarBoundIsInclusive(current: Option<AvatarFile>, name: string)
    ensures PickAvatar(current, Some(AvatarFile(name, 2097152))).file == Some(AvatarFile(name, 2097152))
    ensures PickAvatar(current, Some(AvatarFile(name, 2097153))).file == current
  {
  }

  /** Only files within the bound are ever kept, whatever is picked. */
  lemma PickKeepsBound(current: Option<AvatarFile>, picked: Option<AvatarFile>)
    requires current.Some? ==> current.value.size <= MaxAvatarBytes
    ensures var r := PickAvatar(current, picked);
      r.file.Some? ==> r.file.value.size <= MaxAvatarBytes
  {
  }

  // ---------------------------------------------------------------------
  // Storage names.

  /** `name.split('.').pop()`: the text after the last dot, the whole name
      when there is no dot. */
  function FileExtension(name: string): (ext: string)
    ensures '.' !in ext
    ensures |ext| <= |name| && name[|name| - |ext|..] == ext
    ensures |ext| < |name| ==> name[|name| - |ext| - 1] == '.'
  {
    if |name| == 0 then ""
    else if name[|name| - 1] == '.' then ""
    else
      var init := name[..|name| - 1];
      var ext := FileExtension(init) + [name[|name| - 1]];
      assert init[|init| - (|ext| - 1)..] + [name[|name| - 1]] == name[|name| - |ext|..];
      ext
  }

  /** The extension of a name ending in a dot and a dot-free tail is that
      tail. */
  lemma {:induction false} ExtensionAfterLastDot(prefix: string, tail: string)
    requires '.' !in tail
    ensures FileExtension(prefix + "." + tail) == tail
    decreases |tail|
  {
    var name := prefix + "." + tail;
    if |tail| == 0 {
      assert name[|name| - 1] == '.';
    } else {
      var last := tail[|tail| - 1];
      assert last in tail;
      assert name[..|name| - 1] == prefix + "." + tail[..|tail| - 1];
      assert '.' !in tail[..|tail| - 1];
      ExtensionAfterLastDot(prefix, tail[..|tail| - 1]);
      assert tail == tail[..|tail| - 1] + [last];
    }
  }

  /** `${user.id}-${Date.now()}.${fileExt}`: the user id, a hyphen, the
      time as a numeral, a dot and the picked file's extension. */
  function StorageFileName(userId: string, nowMillis: nat, fileName: string): (stored: string)
    ensures |stored| > |userId| && stored[..|userId| + 1] == userId + "-"
    ensures FileExtension(stored) == FileExtension(fileName)
    // Between the hyphen and the dot before the extension sits the time,
    // as a non-empty numeral that reads back as `nowMillis`.
    ensures var ext := FileExtension(fileName);
      && |stored| > |userId| + |ext| + 2
      && stored[|stored| - |ext| - 1] == '.'
      && var time := stored[|userId| + 1..|stored| - |ext| - 1];
         && (forall k | 0 <= k < |time| :: JsText.IsDigit(time[k]))
         && (|time| > 1 ==> time[0] != '0')
         && JsText.DecimalValue(time) == nowMillis
  {
    var digits, ext := JsText.Decimal(nowMillis), FileExtension(fileName);
    NameShape(userId, digits, ext);
    userId + "-" + digits + ("." + ext)
  }

  /** A name built as id, hyphen, some text, dot and a dot-free extension
      starts with the id and the hyphen, has that extension, and holds the
      text between the hyphen and that last dot. */
  lemma NameShape(userId: string, middle: string, ext: string)
    requires '.' !in ext
    ensures var n := userId + "-" + middle + ("." + ext);
      && |n| == |userId| + |middle| + |ext| + 2
      && n[..|userId| + 1] == userId + "-"
      && n[|n| - |ext| - 1] == '.'
      && n[|userId| + 1..|n| - |ext| - 1] == middle
      && FileExtension(n) == ext
  {
    var n := userId + "-" + middle + ("." + ext);
    assert n == userId + "-" + middle + "." + ext;
    assert n[..|userId| + 1] == userId + "-";
    MiddleOf(userId + "-", middle, "." + ext);
    ExtensionAfterLastDot(userId + "-" + middle, ext);
  }

  /** The middle part of a three-part concatenation is read back by slicing. */
  lemma MiddleOf(a: string, b: string, c: string)
    ensures (a + b + c)[|a|..|a| + |b|] == b
  {
    assert (a + b + c)[|a|..|a| + |b|] == (a + b)[|a|..];
  }

  /** Two uploads by the same user of files with the same extension get
      distinct storage names whenever the clock moved on between them: the
      name determines the time it was taken at. */
  lemma StorageNameDeterminesTime(userId: string, m1: nat, m2: nat, fileName: string)
    ensures StorageFileName(userId, m1, fileName) == StorageFileName(userId, m2, fileName) ==> m1 == m2
  {
  }

  // ---------------------------------------------------------------------
  // Saving the profile.

  /** `u` is what `v || null` gives: null exactly when `v` is null or empty,
      and `v` itself otherwise. */
  predicate NullsEmpty(u: Option<string>, v: Option<string>) {
    && (u.None? <==> (v.None? || v.value == ""))
    && (u.Some? ==> u == v)
  }

  /** `value || null` on a nullable string field. */
  function NullIfEmpty(v: Option<string>): (r: Option<string>)
    ensures NullsEmpty(r, v)
  {
    if v.None? || v.value == "" then None else v
  }

  /** Storage's answer to the upload: the public URL of the stored file, or
      an error with its message. */
  datatype UploadOutcome = Uploaded(publicUrl: string) | UploadFailed(uploadError: string)

  datatype UpsertOutcome = Upserted | UpsertFailed(upsertError: string)

  /** What the outside world does during one save. */
  datatype ProfileWorld = ProfileWorld(
    userId: Option<string>,
    upload: UploadOutcome,
    upsert: UpsertOutcome,
    nowMillis: nat,
    nowIso: string)

  /** A run of `updateProfile`: the storage name uploaded to, the record
      upserted, the banner, and whether `onProfileUpdate` was called. */
  datatype SaveRun = SaveRun(
    uploadedAs: Option<string>,
    upserted: Option<ProfileUpdate>,
    notice: Option<Notice>,
    notified: bool)

  /** The banner for a caught error, `error.message || 'Error updating
      profile'`: an error banner that is never empty, showing the message
      whenever there is one. */
  function ErrorNotice(message: string): (n: Notice)
    ensures n.isError && n.text != ""
    ensures message != "" ==> n.text == message
    ensures message == "" ==> n.text == UpdateFailedText
  {
    Notice(if message != "" then message else UpdateFailedText, true)
  }

  /** The upsert record: the signed-in id, every text field with empty
      turned into null, the avatar URL, the current time. */
  function UpdateRecord(profile: ProfileData, userId: string, avatarUrl: Option<string>, nowIso: string)
    : (u: ProfileUpdate)
    ensures u.id == userId && u.avatarUrl == avatarUrl && u.updatedAt == nowIso
    ensures NullsEmpty(u.firstName, profile.firstName) && NullsEmpty(u.lastName, profile.lastName)
    ensures NullsEmpty(u.phoneNumber, profile.phoneNumber)
    ensures NullsEmpty(u.countryCode, profile.countryCode)
  {
    ProfileUpdate(
      userId,
      NullIfEmpty(profile.firstName),
      NullIfEmpty(profile.lastName),
      NullIfEmpty(profile.phoneNumber),
      NullIfEmpty(profile.countryCode),
      avatarUrl,
      nowIso)
  }

  /** `updateProfile`. */
  function UpdateProfile(profile: Option<ProfileData>, avatarFile: Option<AvatarFile>, world: ProfileWorld)
    : (r: SaveRun)
    // Nothing happens without a loaded profile.
    ensures profile.None? ==> r == SaveRun(None, None, None, false)
    // Without a signed-in user nothing is written.
    ensures profile.Some? && world.userId.None? ==>
              r == SaveRun(None, None, Some(ErrorNotice(NoUserText)), false)
    // A failed upload stops the save before the upsert.
    ensures world.upload.UploadFailed? && avatarFile.Some? ==> r.upserted.None? && !r.notified
    // The row written carries the signed-in id, and the new public URL
    // exactly when a file was uploaded, the old avatar URL otherwise.
    ensures r.upserted.Some? ==>
      && profile.Some? && world.userId.Some?
      && r.upserted.value.id == world.userId.value
      && r.upserted.value.avatarUrl
           == (if avatarFile.Some? then Some(world.upload.publicUrl) else profile.value.avatarUrl)
    ensures r.uploadedAs.Some? <==> profile.Some? && world.userId.Some? && avatarFile.Some?
    ensures r.notified <==> r.upserted.Some? && world.upsert.Upserted?
    // The file goes to `<user id>-<now>.<extension>`.
    ensures profile.Some? && world.userId.Some? && avatarFile.Some? ==>
              r.uploadedAs == Some(StorageFileName(world.userId.value, world.nowMillis, avatarFile.value.name))
    // A failed upload shows its error.
    ensures profile.Some? && world.userId.Some? && avatarFile.Some? && world.upload.UploadFailed? ==>
              r.notice == Some(ErrorNotice(world.upload.uploadError))
    // With a profile, a user and no failed upload, the row is always
    // written, and it is the update record for the new avatar URL.
    ensures profile.Some? && world.userId.Some? && !(avatarFile.Some? && world.upload.UploadFailed?) ==>
              && r.upserted == Some(UpdateRecord(profile.value, world.userId.value,
                                                 if avatarFile.Some? then Some(world.upload.publicUrl)
                                                 else profile.value.avatarUrl,
                                                 world.nowIso))
              && r.notice == (if world.upsert.Upserted? then Some(Notice(UpdatedText, false))
                              else Some(ErrorNotice(world.upsert.upsertError)))
  {
    match profile
    case None => SaveRun(None, None, None, false)
    case Some(current) =>
      match world.userId
      case None => SaveRun(None, None, Some(ErrorNotice(NoUserText)), false)
      case Some(userId) =>
        var uploadedAs :=
          if avatarFile.Some? then Some(StorageFileName(userId, world.nowMillis, avatarFile.value.name))
          else None;
        if avatarFile.Some? && world.upload.UploadFailed? then
          SaveRun(uploadedAs, None, Some(ErrorNotice(world.upload.uploadError)), false)
        else
          var avatarUrl := if avatarFile.Some? then Some(world.upload.publicUrl) else current.avatarUrl;
          var updates := UpdateRecord(current, userId, avatarUrl, world.nowIso);
          match world.upsert
          case Upserted => SaveRun(uploadedAs, Some(updates), Some(Notice(UpdatedText, false)), true)
          case UpsertFailed(message) => SaveRun(uploadedAs, Some(updates), Some(ErrorNotice(message)), false)
  }

  /** Every text field of a written row is null or non-empty: the store
      never receives an empty string for them. */
  lemma UpsertedFieldsNeverEmpty(profile: Option<ProfileData>, avatarFile: Option<AvatarFile>, world: ProfileWorld)
    ensures var r := UpdateProfile(profile, avatarFile, world);
      r.upserted.Some? ==>
        && r.upserted.value.firstName != Some("")
        && r.upserted.value.lastName != Some("")
        && r.upserted.value.phoneNumber != Some("")
        && r.upserted.value.countryCode != Some("")
  {
  }

  /** Saving twice writes the same row both times (bar the time stamp):
      turning empty fields into null is idempotent. */
  lemma NullIfEmptyIdempotent(v: Option<string>)
    ensures NullIfEmpty(NullIfEmpty(v)) == NullIfEmpty(v)
  {
  }
}

=== FILE: title_editors.dfy ===
/** The two inline title editors, components/EditableTitle.tsx and
    components/ChatTitle.tsx. Both hold an editing flag and an edit buffer
    seeded from the `title` prop; they differ in that only EditableTitle
    refuses to save a blank buffer and only it saves on Enter. */
module TitleEditor {
  import opened Optional

  /** `isEditing` and `editedTitle`. */
  datatype EditorState = EditorState(isEditing: bool, buffer: string)

  /** What the user can do to an editor: click the pencil, type, click the
      check mark, click the cross, or press a key in the field. */
  datatype EditEvent =
    | StartEdit
    | Change(text: string)
    | Save
    | Cancel
    | KeyDown(key: string)

  /** The next state, and the title passed to the save callback (`onSave`
      or `onUpdate`) when the handler calls it. */
  datatype Transition = Transition(state: EditorState, committed: Option<string>)

  /** The state on mount: not editing, buffer holding the title. */
  function Initial(title: string): (st: EditorState) {
    EditorState(false, title)
  }
}

module EditableTitle {
  import opened Optional
  import JsText
  import opened TitleEditor

  /** `handleSave`: a blank buffer is not saved and editing goes on; any
      other buffer is handed over untrimmed and editing stops. */
  function HandleSave(st: EditorState): (t: Transition)
    ensures JsText.IsBlank(st.buffer) ==> t == Transition(st, None)
    ensures !JsText.IsBlank(st.buffer) ==> t == Transition(EditorState(false, st.buffer), Some(st.buffer))
  {
    JsText.TrimEmptyIffBlank(st.buffer);
    if JsText.Trim(st.buffer) != "" then Transition(st.(isEditing := false), Some(st.buffer))
    else Transition(st, None)
  }

  /** One event handled by EditableTitle. */
  function Step(title: string, st: EditorState, ev: EditEvent): (t: Transition)
    // Save, and Enter in the field, hand over the untrimmed buffer and stop
    // editing exactly when the buffer is not blank; otherwise nothing changes.
    ensures (ev.Save? || ev == KeyDown("Enter")) ==>
      (if JsText.IsBlank(st.buffer) then t == Transition(st, None)
       else t == Transition(EditorState(false, st.buffer), Some(st.buffer)))
    // Other keys change nothing.
    ensures (ev.KeyDown? && ev.key != "Enter") ==> t == Transition(st, None)
    // Cancel restores the title and stops editing without saving.
    ensures ev.Cancel? ==> t == Transition(Initial(title), None)
    // Entering edit mode keeps the buffer.
    ensures ev.StartEdit? ==> t == Transition(EditorState(true, st.buffer), None)
    ensures ev.Change? ==> t == Transition(st.(buffer := ev.text), None)
  {
    JsText.TrimEmptyIffBlank(st.buffer);
    match ev
    case StartEdit => Transition(st.(isEditing := true), None)
    case Change(text) => Transition(st.(buffer := text), None)
    case Save => HandleSave(st)
    case Cancel => Transition(st.(buffer := title, isEditing := false), None)
    case KeyDown(key) => if key == "Enter" then HandleSave(st) else Transition(st, None)
  }
}

module ChatTitle {
  import opened Optional
  import opened TitleEditor

  /** One event handled by ChatTitle. Its field has no key handler, so key
      presses only ever reach the browser's default. */
  function Step(title: string, st: EditorState, ev: EditEvent): (t: Transition)
    // Save always hands over the buffer, even an empty or blank one, and
    // always stops editing.
    ensures ev.Save? ==> t == Transition(EditorState(false, st.buffer), Some(st.buffer))
    ensures ev.Cancel? ==> t == Transition(Initial(title), None)
    ensures ev.StartEdit? ==> t == Transition(EditorState(true, st.buffer), None)
    ensures ev.Change? ==> t == Transition(st.(buffer := ev.text), None)
    ensures ev.KeyDown? ==> t == Transition(st, None)
  {
    match ev
    case StartEdit => Transition(st.(isEditing := true), None)
    case Change(text) => Transition(st.(buffer := text), None)
    case Save => Transition(st.(isEditing := false), Some(st.buffer))
    case Cancel => Transition(st.(buffer := title, isEditing := false), None)
    case KeyDown(_) => Transition(st, None)
  }
}

/** How the two editors relate, and what a whole editing session does. */
module TitleEditorFacts {
  import opened Optional
  import JsText
  import opened TitleEditor
  import EditableTitle
  import ChatTitle

  /** The editors behave alike on every event except a save of a blank
      buffer, which only ChatTitle commits, and Enter, which only
      EditableTitle treats as save. */
  lemma EditorsDifferOnlyOnBlankSaveAndEnter(title: string, st: EditorState, ev: EditEvent)
    ensures (ev.Save? && !JsText.IsBlank(st.buffer)) || (!ev.Save? && ev != KeyDown("Enter"))
      ==> EditableTitle.Step(title, st, ev) == ChatTitle.Step(title, st, ev)
    ensures ev.Save? && JsText.IsBlank(st.buffer) ==>
      && EditableTitle.Step(title, st, ev).committed == None
      && ChatTitle.Step(title, st, ev).committed == Some(st.buffer)
  {
  }

  /** Run a sequence of events through an editor, collecting every title it
      committed. */
  function RunEditable(title: string, st: EditorState, evs: seq<EditEvent>): (r: (EditorState, seq<string>))
    decreases |evs|
  {
    if |evs| == 0 then (st, [])
    else
      var t := EditableTitle.Step(title, st, evs[0]);
      var rest := RunEditable(title, t.state, evs[1..]);
      (rest.0, (if t.committed.Some? then [t.committed.value] else []) + rest.1)
  }

  function RunChatTitle(title: string, st: EditorState, evs: seq<EditEvent>): (r: (EditorState, seq<string>))
    decreases |evs|
  {
    if |evs| == 0 then (st, [])
    else
      var t := ChatTitle.Step(title, st, evs[0]);
      var rest := RunChatTitle(title, t.state, evs[1..]);
      (rest.0, (if t.committed.Some? then [t.committed.value] else []) + rest.1)
  }

  /** Events that never save: entering edit mode and typing. */
  predicate NoSaveEvents(evs: seq<EditEvent>) {
    forall k | 0 <= k < |evs| :: evs[k].StartEdit? || evs[k].Change?
  }

  /** Whatever was typed, cancelling returns EditableTitle to its initial
      state and nothing was committed on the way. */
  lemma {:induction false} EditableCancelDiscardsEdits(title: string, st: EditorState, evs: seq<EditEvent>)
    requires NoSaveEvents(evs)
    ensures RunEditable(title, st, evs + [Cancel]) == (Initial(title), [])
    decreases |evs|
  {
    if |evs| == 0 {
      assert evs + [Cancel] == [Cancel] && [Cancel][1..] == [];
      var t := EditableTitle.Step(title, st, Cancel);
      assert RunEditable(title, t.state, []) == (Initial(title), []);
      assert RunEditable(title, st, [Cancel]).1 == [];
    } else {
      assert (evs + [Cancel])[1..] == evs[1..] + [Cancel];
      EditableCancelDiscardsEdits(title, EditableTitle.Step(title, st, evs[0]).state, evs[1..]);
    }
  }

  /** The same for ChatTitle. */
  lemma {:induction false} ChatTitleCancelDiscardsEdits(title: string, st: EditorState, evs: seq<EditEvent>)
    requires NoSaveEvents(evs)
    ensures RunChatTitle(title, st, evs + [Cancel]) == (Initial(title), [])
    decreases |evs|
  {
    if |evs| == 0 {
      assert evs + [Cancel] == [Cancel] && [Cancel][1..] == [];
      var t := ChatTitle.Step(title, st, Cancel);
      assert RunChatTitle(title, t.state, []) == (Initial(title), []);
      assert RunChatTitle(title, st, [Cancel]).1 == [];
    } else {
      assert (evs + [Cancel])[1..] == evs[1..] + [Cancel];
      ChatTitleCancelDiscardsEdits(title, ChatTitle.Step(title, st, evs[0]).state, evs[1..]);
    }
  }

  /** EditableTitle never commits a blank title, whatever the events. */
  lemma {:induction false} EditableNeverCommitsBlank(title: string, st: EditorState, evs: seq<EditEvent>)
    ensures forall k | 0 <= k < |RunEditable(title, st, evs).1| ::
      !JsText.IsBlank(RunEditable(title, st, evs).1[k])
    decreases |evs|
  {
    if |evs| > 0 {
      EditableNeverCommitsBlank(title, EditableTitle.Step(title, st, evs[0]).state, evs[1..]);
    }
  }
}
